=== FILE: README.md ===
# MBPopup — a Dafny model of the status-bar popup's logic

MBPopup is a macOS menu-bar control. A status item's button opens a floating,
arrow-pointed panel under it. Almost all of the library is AppKit glue. This
project models the three pieces of logic that can be stated without AppKit:

- **Click classification** (`modifiers.dfy`, `statusitems.dfy`). The modifier
  chord reported to the caller (`pressedModifiers`). Whether a mouse event is
  a click on this status item (`clickedStatusItem`, `realItem`, `realWindow`,
  `shouldTrigger`). This includes the replicas the system shows on other
  screens, the reserved synthetic event number 1337, and the Command-drag
  exclusion. Windows and buttons are values compared by id. What the source
  reads through key-value coding is a field of those values.
- **The open/close state machine** (`popupstate.dfy`, shared by both versions).
  `isOpen`, `isOpening`, the button highlight, the content's `isHidden`, and
  whether the panel is on screen. Each animation's completion handler is an
  explicit later event. Counters of scheduled handlers let the completions
  interleave freely with everything else. The callbacks the caller sees
  (`willOpenPopup`, `didOpenPopup`, `willClosePopup`, `didClosePopup`) are
  returned as a trace. The trace also marks each `setFrame` made by
  `resizePopup`, and whether it was animated, with a `Resized` entry; that
  entry is not a callback.
- **Panel geometry** (`geometry.dfy`), over exact reals. This covers resizing,
  the placement under the status item, the clamp against the screen's right
  edge, the status-rect shift, the arrow offset, and the older
  `boundsContain` hit test. `round` is C's `round`: nearest integer, with
  halves rounded away from zero. The `CGRect` accessors standardize a
  negative size as AppKit does. With a negative button height, the shifted
  status rect's top is therefore not the old bottom. `StatusRect` states that
  property for non-negative heights only.

`controller.dfy` wires these into the controller: the public actions, the
window-delegate calls, the mouse-down and mouse-up monitors with the 0.35 s
long-press rule, and `resizePopup`. It models both versions of the
controller, chosen by a `Version` value. `Current` is the one under
`Sources/`. `Legacy` is the older one under `MBPopup/`, with its `openPanel`
corrected to re-aim the arrow (see Findings). The older one has a
fixed panel size (content plus two points, plus the arrow), no main-screen
fallback, no `shouldOpenPopup` predicate and no `resizePopup`.
`legacy.dfy` holds the older `openPanel` as written (see Findings) and the
properties specific to the older version. The older `mbpopup_pressedModifiers`
(MBPopup/MBPopupExtensions.swift:13-28) is semantically the same as
`pressedModifiers`, and `Modifiers.PressedModifiers` models both.

Flag bits follow AppKit's `NSEvent.ModifierFlags`. Shift is bit 17, Option
bit 19 and Command bit 20. The device-independent mask is `0xffff0000`. A
flag word is a `bv64`.

Modelling assumptions about AppKit:

- `setFrame` posts `windowDidResize` exactly when the frame's size changes.
- `makeKeyAndOrderFront` puts the panel on screen.
- `orderOut` takes it off.
- `NSWindow.close()` on the panel posts `windowWillClose` and then orders the
  panel out at once. The button stays highlighted until the fade-out handler
  unhighlights it, so the highlight can outlast the panel.
- `isVisible` is that on-screen flag.
- AppKit sets `NSApp.currentEvent` to the monitored event before it runs a
  local event monitor. The mouse-down monitor therefore passes that event to
  `openPanel` as the current event.
- The environment is fixed for a whole run. This covers the status item's
  position on screen, the screens, `arrowSize`, `contentInset`, the content
  size and `shouldOpenPopup`. In the source these can change while the popup
  is open, for example when other menu-bar items push the status item
  aside. Nothing re-aims an open popup's arrow then, so the arrow property
  below holds only while the status item and the screens stay put.

## Model

| member | source | states |
|---|---|---|
| Modifiers.PressedModifiers | Sources/MBPopup/MBPopupExtensions.swift:10-25 | Shift+Option, Shift or Option is reported exactly when that chord, and no other device-independent modifier, is held; every other combination reports none |
| Modifiers.ExactChords | Sources/MBPopup/MBPopupExtensions.swift:11-21 | comparing the masked flags with a chord's bits is the same as "exactly these named modifiers are held and no unnamed device-independent bit is set" (also for Command alone) |
| Modifiers.OnlyDeviceIndependentBitsMatter | Sources/MBPopup/MBPopupExtensions.swift:11 | two flag words that agree after masking classify the same |
| Modifiers.ShiftCommandIsNone | Sources/MBPopup/MBPopupExtensions.swift:16-24 | Shift+Command is not a reported chord |
| Modifiers.DeviceDependentBitsIgnored | MBPopup/MBPopupExtensions.swift:14 | for every flag word, setting any device-dependent bits (which physical key) does not change the classification |
| StatusItems.ClickedStatusItem | Sources/MBPopup/MBPopupExtensions.swift:27-36 | a status item is found only for an event with a window whose class starts with NSStatusBar and ends with Window, and it is that window's item |
| StatusItems.RealItem | Sources/MBPopup/MBPopupExtensions.swift:40-49 | an NSStatusItem is its own real item; anything else resolves to its parentItem |
| StatusItems.RealWindow | Sources/MBPopup/MBPopupExtensions.swift:51-59 | an NSStatusItem's real window is its button's window (none without a button); a replicant's is its own window |
| StatusItems.ShouldTrigger | Sources/MBPopup/MBPopupExtensions.swift:90-102 | an event triggers exactly when its clicked item's real button is this item's button, the clicked item's real window is the event's window, its number is not 1337, and it is not a plain Command mouse-down |
| StatusItems.PlainItemIsItsOwnRealItem | Sources/MBPopup/MBPopupExtensions.swift:40-53 | a plain item resolves to itself and to its button's window |
| StatusItems.ReplicantResolvesToParent | Sources/MBPopup/MBPopupExtensions.swift:44-57 | a replicant resolves to its parent item but to its own window |
| StatusItems.StatusBarWindowClassLength | Sources/MBPopup/MBPopupExtensions.swift:31 | NSStatusBarWindow passes the class test, NSStatusItem does not, and no name shorter than 17 characters does, since the prefix and suffix cannot overlap |
| StatusItems.PlainClickTriggers | Sources/MBPopup/MBPopupExtensions.swift:90-102 | an unmodified click on the item's own status bar window triggers |
| StatusItems.ReplicantClickTriggersParent | Sources/MBPopup/MBPopupExtensions.swift:91-92 | a click in a replicant's window triggers the item it replicates |
| StatusItems.SyntheticClickNeverTriggers | Sources/MBPopup/MBPopupExtensions.swift:93-101 | event number 1337 never triggers |
| StatusItems.CommandClickRules | Sources/MBPopup/MBPopupExtensions.swift:95-99 | a plain Command mouse-down never triggers; adding Option to a triggering mouse-down, or making it a mouse-up, still triggers |
| StatusItems.ForeignClickNeverTriggers | Sources/MBPopup/MBPopupExtensions.swift:28-31 | no window, a non-status-bar window, or an item without a button never triggers |
| Geometry.Round | Sources/MBPopup/MBPopupController.swift:299 | the result is an integer within one half of the input, and a halfway input rounds away from zero |
| Geometry.StatusRect | Sources/MBPopup/MBPopupController.swift:263-269 | the status rect (zero if unknown) keeps its x and size and moves down by its height, so its top is the button's old bottom |
| Geometry.ResizeFrame | Sources/MBPopup/MBPopupController.swift:161-179 | the new size is content plus twice the inset, plus the arrow height vertically; the top edge and the horizontal centre do not move |
| Geometry.ResizeIdempotent | Sources/MBPopup/MBPopupController.swift:168-175 | resizing again to the same content size leaves the frame unchanged |
| Geometry.ResizeLastWins | Sources/MBPopup/MBPopupController.swift:168-175 | two resizes in a row give the frame of the second alone |
| Geometry.PlaceUnder | Sources/MBPopup/MBPopupController.swift:282-284 | the panel keeps its size, hangs from the status rect's top, and its centre is within half a point of the status centre at a whole-point x |
| Geometry.ClampRight | Sources/MBPopup/MBPopupController.swift:286-288 | afterwards maxX is at most screen maxX minus the arrow height; the panel only moves left, keeps size and y, stays put when it fits, and otherwise ends exactly at the limit |
| Geometry.PanelRects | Sources/MBPopup/MBPopupController.swift:271-291 | no screen gives three zero rects; otherwise the panel keeps its size and hangs from the status rect; it stays at its centred placement when that fits the right-edge limit, and otherwise ends exactly at the limit |
| Geometry.LegacyPanelSize | MBPopup/MBPopupController.swift:207-208 | the older panel is the content's height plus 2 plus the arrow height, by the content's width plus 2 |
| Geometry.LegacyPanelRects | MBPopup/MBPopupController.swift:199-217 | the older rects: zero without a screen; otherwise content-derived size, hung from the status rect's top by its standardized height; it stays at the older centred placement when that fits the right-edge limit, and otherwise ends exactly at the limit |
| Geometry.LegacyPlaceUnder | MBPopup/MBPopupController.swift:209-210 | the older placement keeps the size, puts x on a whole point within half a point of centred under the status rect, and hangs the panel by its standardized height |
| Geometry.ArrowX | Sources/MBPopup/MBPopupController.swift:295-303 | the arrow tip, measured from the panel's left edge, lands on the rounded status centre, within half a point of the true centre |
| Geometry.ArrowCentredWhenUnclamped | Sources/MBPopup/MBPopupController.swift:282-302 | when the clamp does not move the panel, the arrow is within one point of the panel's centre |
| Geometry.ArrowFollowsClamp | Sources/MBPopup/MBPopupController.swift:286-302 | when the clamp moves the panel, the arrow offset grows by exactly the panel's overshoot past the limit; when it does not, the offset is the placement's |
| Geometry.LegacyArrowCentredWhenUnclamped | MBPopup/MBPopupController.swift:209-214 | when the clamp does not move the older panel, its arrow is within one point of the panel's centre |
| Geometry.BoundsContain | MBPopup/MBPopupExtensions.swift:42-50 | a point is accepted exactly when the plain bounds accept it or it lies on a band one point tall above them |
| Geometry.BoundsContainWidens | MBPopup/MBPopupExtensions.swift:46-49 | the hit test never rejects a point the plain bounds accept |
| Geometry.UpperEdgeContained | MBPopup/MBPopupExtensions.swift:42-49 | a point on the upper edge is accepted though the plain bounds reject it |
| Geometry.BoundsContainAddsOnlyTopBand | MBPopup/MBPopupExtensions.swift:46-49 | the only points added lie within the bounds' columns and less than one point above their top |
| PopupState.Init | Sources/MBPopup/MBPopupController.swift:45-53 | the initial controller is closed, unhighlighted, off screen, settled, and satisfies the invariant |
| PopupState.BeginOpen | Sources/MBPopup/MBPopupController.swift:203-223 | opening announces willOpen with the keys, sets isOpen and isOpening, highlights at once, shows the content, puts the panel on screen and schedules one fade-in |
| PopupState.BeginClose | Sources/MBPopup/MBPopupController.swift:242-251 | closing announces willClose, clears isOpen and hides the content but leaves highlight and visibility alone, and schedules one fade-out |
| PopupState.OpenDone | Sources/MBPopup/MBPopupController.swift:228-238 | the fade-in handler always clears isOpening and announces didOpen exactly when the popup is still open; it changes nothing else but the on-screen flag |
| PopupState.CloseDone | Sources/MBPopup/MBPopupController.swift:252-257 | the fade-out handler does nothing if reopened; otherwise it unhighlights, takes the panel off screen and announces didClose; it changes nothing else |
| PopupState.CloseWindow | Sources/MBPopup/MBPopupController.swift:322-324 | closing the panel window announces willClose, clears isOpen, hides the content, schedules a fade-out and takes the panel off screen at once, leaving the highlight |
| PopupState.ResignKey | Sources/MBPopup/MBPopupController.swift:326-330 | losing key status closes exactly when the panel is on screen and not fading in |
| PopupState.Toggle | Sources/MBPopup/MBPopupController.swift:146-152 | toggling flips isOpen, closing an open popup and opening a closed one |
| PopupState.ToggleTwiceFromClosed | Sources/MBPopup/MBPopupController.swift:146-152 | from a settled closed popup, two toggles and both completions in either order end closed, unhighlighted and off screen, with willOpen, willClose, didClose announced |
| PopupState.ToggleTwiceFromOpen | Sources/MBPopup/MBPopupController.swift:249-258 | from a settled open popup, two toggles and both completions in either order end open, highlighted and on screen, and didClose is never announced |
| PopupState.ResignKeyWhileOpening | Sources/MBPopup/MBPopupController.swift:327 | during the fade-in, losing key status changes nothing |
| Controller.LastClickedWindow | Sources/MBPopup/MBPopupController.swift:264 | no window without a recorded mouse-down; otherwise the real window of the status item that mouse-down clicked, if any |
| Controller.GlobalRect | Sources/MBPopup/MBPopupExtensions.swift:69-81 | no button gives no rect; otherwise the button's rect is converted through the reference window, or else the button's own window, and is nil when neither exists |
| Controller.ScreenOf | Sources/MBPopup/MBPopupController.swift:274-277 | the clicked window's screen when it has one; with no clicked window, or one without a screen, the newer version uses the main screen and the older one none |
| Controller.RectsOf | Sources/MBPopup/MBPopupController.swift:271-291 | with a screen the panel respects the right-edge limit, keeping its size (newer) or taking the content-derived size (older); without one every rect is zero |
| Controller.OpeningKeys | Sources/MBPopup/MBPopupController.swift:206-210 | willOpen gets the current event's keys if it is a mouse-down, none otherwise |
| Controller.OpenPanel | Sources/MBPopup/MBPopupController.swift:203-240 | opening takes the frame rects(forPanel:) gives (zero without a screen, else within the right-edge limit) and leaves the arrow pointing at the status item |
| Controller.TogglePanel | Sources/MBPopup/MBPopupController.swift:146-152 | toggling flips isOpen and keeps the invariant |
| Controller.SetFrame | Sources/MBPopup/MBPopupController.swift:178 | a frame change is animated exactly when the panel is on screen, and a size change re-aims the arrow |
| Controller.Resize | Sources/MBPopup/MBPopupController.swift:161-179 | resizing sets the resized frame, animated only when visible, keeps an aimed arrow aimed, and changes nothing but the frame and arrow |
| Controller.RepositionArrow | Sources/MBPopup/MBPopupController.swift:332-334 | after windowDidResize the arrow points at the status item and nothing else changes |
| Controller.MouseDownMonitor | Sources/MBPopup/MBPopupController.swift:89-100 | a mouse-down toggles and is recorded exactly when it triggers and (newer version) the caller's predicate, if any, accepts its keys; the toggle runs after the click is recorded, so it opens on the clicked item's screen with this click's keys |
| Controller.MouseUpMonitor | Sources/MBPopup/MBPopupController.swift:102-112 | a mouse-up closes exactly when a mouse-down was recorded, the popup is open, the event triggers, and more than 0.35 s passed; it never opens |
| Controller.Apply | Sources/MBPopup/MBPopupController.swift:138-152 | every event keeps the invariant and emits at most one callback; open opens, close and windowWillClose close, toggle flips, completions and resizes leave isOpen alone |
| Controller.RunKeepsInv | Sources/MBPopup/MBPopupController.swift:45-51 | along any run the button is highlighted while the panel is on screen, an open popup is on screen and shown, and a closed popup still highlighted is waiting for a fade-out |
| Controller.WindowCloseThenResignKey | Sources/MBPopup/MBPopupController.swift:322-330 | closing the panel window and then losing key status announces willClose once and leaves the panel off screen, since resign-key finds it gone |
| Controller.StepBalanced | Sources/MBPopup/MBPopupController.swift:225-258 | one event announces didOpen or didClose only by consuming a scheduled animation |
| Controller.CallbacksBalanced | Sources/MBPopup/MBPopupController.swift:225-258 | over any run didOpen fires at most as often as willOpen, and didClose at most as often as willClose |
| Controller.QuickClickStaysOpen | Sources/MBPopup/MBPopupController.swift:102-109 | a click released within 0.35 s leaves the popup open |
| Controller.LongPressClosesOnRelease | Sources/MBPopup/MBPopupController.swift:102-109 | a press held longer than 0.35 s opens on mouse-down and closes on release |
| Controller.ShouldOpenVeto | Sources/MBPopup/MBPopupController.swift:90-97 | an absent predicate counts as true, and a predicate answering false stops the toggle |
| Controller.OpenArrowStaysAligned | Sources/MBPopup/MBPopupController.swift:215-221 | whatever event arrives, an open popup's arrow keeps pointing at the status item |
| Controller.RunKeepsArrowAligned | Sources/MBPopup/MBPopupController.swift:295-302 | while the status item and screens stay put, along any run of the newer version, or of the older one with its corrected open, whenever the popup is open its arrow points at the status item |
| LegacyController.OpenPanelAsWritten | MBPopup/MBPopupController.swift:134-151 | the older open sets the new frame but leaves the arrow where it was whenever the size did not change |
| LegacyController.StaleArrowAfterOpen | MBPopup/MBPopupController.swift:146-151 | a reopen whose clamp moves a same-size panel leaves the arrow at 100 where it should be 198; the corrected open puts it at 198 |
| LegacyController.ToggleTwice | MBPopup/MBPopupController.swift:124-130 | the older toggle flips isOpen, so two toggles restore it |
| LegacyController.MouseDownIgnoresPredicate | MBPopup/MBPopupController.swift:76-83 | every triggering mouse-down toggles the older popup and is recorded; there is no caller predicate |
| LegacyController.ResizeAimsArrow | MBPopup/MBPopupController.swift:246-254 | the older windowDidResize sets the arrow to the rounded status centre less the panel's left edge and keeps the frame |
| LegacyController.ResignKeyRule | MBPopup/MBPopupController.swift:240-244 | the older resign-key closes exactly when the panel is on screen and not fading in |
| LegacyController.CloseDoneAfterReopen | MBPopup/MBPopupController.swift:177-186 | the older fade-out handler does nothing when the popup was reopened before it ran |
| LegacyController.NoClickNoScreen | MBPopup/MBPopupController.swift:200-201 | an older programmatic open before any click gives the panel a zero frame: there is no main-screen fallback |

## Left out

- Drawing the background (Bezier path, colours, corner radius). Auto-layout of the container view. These are AppKit rendering and layout-engine calls.
- Installing and removing the event monitors, `NSAnimationContext` timing, `NSApp.activate`, the panel's alpha, and key-window status. Only their effect on the flags is modelled. Completion handlers are events that may arrive in any order.
- Key-value coding (`statusItem`, `parentItem`, `window`) and the `convert`/`convertToScreen` coordinate conversions. These are inputs: fields of the values, and the `screenOf`/`convertVia` functions of the environment.
- `CGFloat` and `TimeInterval` floating point. Geometry and event timestamps use exact reals, so the 0.35 s long-press test (Sources/MBPopup/MBPopupController.swift:106) is an exact comparison, and `round` is defined exactly.
- AppKit's own adjustment of a frame passed to `setFrame` (for example, constraining it to the screen). The model assumes the frame is taken as given.
- Swift's Unicode-aware `hasPrefix`/`hasSuffix`. Class names are compared as character sequences.
- The `contentInset` setter (Sources/MBPopup/MBPopupController.swift:36-43) and the one-dimension `resizePopup` overloads. They only call `Resize` with the container's or content view's current size, which is layout state outside the model.
- Callbacks that call back into the controller. Callbacks are recorded in a trace and cannot act.
- `MBPopupPanel.canBecomeKey`, `cancelOperation`, the `NSStatusBarButton.mouseDown` override, `Package.swift` and the example app. These are configuration and demo code.
- The older controller calls `shouldTrigger`, `pressedModifiers`, `clickedStatusItem`, `realWindow` and `globalRect(usingWindow:)` (MBPopup/MBPopupController.swift:77, 138, 192, 200). MBPopup/MBPopupExtensions.swift does not define them; it defines only `mbpopup_pressedModifiers()`. Their definitions are not part of this model. The older controller uses the same `Modifiers.PressedModifiers`, `StatusItems.ShouldTrigger`, `StatusItems.ClickedStatusItem`, `StatusItems.RealWindow` and `Controller.GlobalRect` as the newer one.
- Controller.OpenPanel: the `Legacy` variant uses the corrected open, which re-aims the arrow after `setFrame`. The older open as written is `LegacyController.OpenPanelAsWritten`; no run of the older controller is built on it, because it breaks the arrow property (see Findings).
- `resizePopup` for the older version. The older controller has no such method. `Controller.Offers` refuses the `ResizePopup` event for it, and `Controller.Apply` and `Controller.Run` require that every event is offered.
- StatusRect: states the "top meets the old bottom" property only for non-negative button heights. With a negative height, `CGRect`'s standardized accessors make the shifted rect's top differ from the old bottom.

## Findings

| source | as written | input that shows it | evidently intended | confidence | as-written member | corrected member |
|---|---|---|---|---|---|---|
| MBPopup/MBPopupController.swift:134-151 | the older `openPanel` sets the panel frame but never repositions the arrow. Only `windowDidResize` moves it, and that fires only when the size changes. | The panel was last shown unclamped at x = 10 with arrow 100 and size 200 by 108. It is reopened under an item whose centre is at x = 1430 on a 1440-wide screen. The clamp moves it to x = 1232, same size. The arrow stays at 100 instead of 198. | Reposition the arrow after every `setFrame` in `openPanel`, as the newer version does (Sources/MBPopup/MBPopupController.swift:221). | medium; not executed. It relies on `windowDidResize` not being posted for a move without resize. | LegacyController.OpenPanelAsWritten, LegacyController.StaleArrowAfterOpen | Controller.OpenPanel, Controller.RunKeepsArrowAligned |

=== FILE: controller.dfy ===
/**
  `MBPopupController`: the state machine of `PopupState` driven by the public
  actions, the window-delegate calls, the two mouse-event monitors, and the
  panel geometry. Both versions of the controller are modelled; `Version`
  selects where they differ.
*/
module Controller {
  import opened Optionals
  import opened Modifiers
  import opened StatusItems
  import opened Geometry
  import opened PopupState

  /**
    `Current` is the controller under `Sources/`; `Legacy` is the older one
    under `MBPopup/`, with a content-derived panel size, no main-screen
    fallback, no `shouldOpenPopup` predicate and no `resizePopup`.
  */
  datatype Version = Current | Legacy

  /**
    What the controller reads from the rest of the system. `screenOf` is a
    window's screen frame, `mainScreen` that of `NSScreen.main`, and
    `convertVia(w)` the status button's frame converted to screen coordinates
    through window `w`. `shouldOpen` is the caller's optional predicate and
    `content` the content view's frame. The older controller reads neither
    `mainScreen`, `inset` nor `shouldOpen`; its arrow height is the static
    `MBPopup.arrowSize.height`. One environment holds for a whole run: the
    status item does not move and the settings do not change meanwhile.
  */
  datatype Env = Env(
    item: StatusItem,
    screenOf: WindowId -> Option<Rect>,
    mainScreen: Option<Rect>,
    convertVia: WindowId -> Rect,
    arrowHeight: real,
    inset: real,
    content: Rect,
    shouldOpen: Option<PopupKeys -> bool>)

  /** The inputs the controller acts on. `current` stands for `NSApp.currentEvent`. */
  datatype Event =
    | OpenPopup(current: Option<MouseEvent>)
    | ClosePopup
    | TogglePopup(current: Option<MouseEvent>)
    | ResizePopup(width: real, height: real)
    | OpenAnimationDone
    | CloseAnimationDone
    | ResignKeyWindow
    | WindowWillClose
    | WindowDidResize
    | MouseDown(e: MouseEvent)
    | MouseUp(e: MouseEvent)

  /** The seconds a click must be held before releasing it closes the popup again. */
  const LongPress: real := 0.35

  /** The real window of the status item the last recorded mouse-down clicked. */
  function LastClickedWindow(s: State): (r: Option<WindowId>)
    ensures s.lastMouseDown.None? ==> r.None?
    ensures s.lastMouseDown.Some? ==>
      r == (match ClickedStatusItem(s.lastMouseDown.value) case None => None case Some(it) => RealWindow(it))
  {
    match s.lastMouseDown
    case None => None
    case Some(e) => ClickedWindow(e)
  }

  /** `globalRect(usingWindow:)`: the button's screen rectangle, through `reference` or else the button's own window. */
  function GlobalRect(env: Env, reference: Option<WindowId>): (r: Option<Rect>)
    ensures env.item.button.None? ==> r.None?
    ensures env.item.button.Some? && reference.Some? ==> r == Some(env.convertVia(reference.value))
    ensures env.item.button.Some? && reference.None? ==>
      r == (if env.item.button.value.window.Some? then Some(env.convertVia(env.item.button.value.window.value)) else None)
  {
    match env.item.button
    case None => None
    case Some(b) =>
      match (if reference.Some? then reference else b.window)
      case None => None
      case Some(w) => Some(env.convertVia(w))
  }

  /** `statusRect(forWindow:)`. */
  function StatusRectOf(s: State, env: Env): Rect
  {
    StatusRect(GlobalRect(env, LastClickedWindow(s)))
  }

  /**
    The screen of the last clicked status item window; the newer controller
    falls back to the main screen, the older one does not.
  */
  function ScreenOf(v: Version, s: State, env: Env): (r: Option<Rect>)
    ensures LastClickedWindow(s).None? ==> r == (if v == Current then env.mainScreen else None)
    ensures LastClickedWindow(s).Some? && env.screenOf(LastClickedWindow(s).value).Some? ==>
      r == env.screenOf(LastClickedWindow(s).value)
    ensures LastClickedWindow(s).Some? && env.screenOf(LastClickedWindow(s).value).None? ==>
      r == (if v == Current then env.mainScreen else None)
  {
    match LastClickedWindow(s)
    case None => if v == Current then env.mainScreen else None
    case Some(w) => if env.screenOf(w).Some? then env.screenOf(w) else if v == Current then env.mainScreen else None
  }

  /** `rects(forPanel:)` of either version. */
  function RectsOf(v: Version, s: State, env: Env): (r: Rects)
    ensures ScreenOf(v, s, env).Some? ==> MaxX(r.panel) <= MaxX(ScreenOf(v, s, env).value) - env.arrowHeight
    ensures ScreenOf(v, s, env).None? ==> r == NoRects
    ensures ScreenOf(v, s, env).Some? && v == Current ==> r.panel.w == s.frame.w && r.panel.h == s.frame.h
    ensures ScreenOf(v, s, env).Some? && v == Legacy ==>
      r.panel.w == Width(env.content) + 2.0 && r.panel.h == Height(env.content) + 2.0 + env.arrowHeight
  {
    if v == Current then PanelRects(ScreenOf(v, s, env), StatusRectOf(s, env), s.frame, env.arrowHeight)
    else LegacyPanelRects(ScreenOf(v, s, env), StatusRectOf(s, env), s.frame, env.content, env.arrowHeight)
  }

  /** The arrow points at the status item from the panel's current frame. */
  predicate ArrowAligned(s: State, env: Env)
  {
    s.arrowX == ArrowX(StatusRectOf(s, env), s.frame)
  }

  /** The keys `openPanel` reports: those of the current event if it is a mouse-down, else none. */
  function OpeningKeys(current: Option<MouseEvent>): (r: PopupKeys)
    ensures current.None? ==> r == KeysNone
    ensures current.Some? && current.value.kind != LeftMouseDown ==> r == KeysNone
    ensures current.Some? && current.value.kind == LeftMouseDown ==> r == PressedModifiers(current.value.flags)
  {
    match current
    case Some(e) => if e.kind == LeftMouseDown then PressedModifiers(e.flags) else KeysNone
    case None => KeysNone
  }

  /**
    `openPanel`: the panel is placed by `rects(forPanel:)` and the arrow
    repositioned under the status item before the fade-in starts. (The older
    `openPanel` leaves the arrow to `windowDidResize`; see
    `LegacyController.OpenPanelAsWritten`. Both versions use this corrected
    form here.)
  */
  function OpenPanel(v: Version, s: State, env: Env, current: Option<MouseEvent>): (r: Step)
    ensures r.notices == [WillOpen(OpeningKeys(current))]
    ensures r.next.isOpen && r.next.isOpening && r.next.highlighted && r.next.visible
    ensures r.next.frame == RectsOf(v, s, env).panel
    ensures ScreenOf(v, s, env).Some? ==> MaxX(r.next.frame) <= MaxX(ScreenOf(v, s, env).value) - env.arrowHeight
    ensures ScreenOf(v, s, env).None? ==> r.next.frame == Zero
    ensures ArrowAligned(r.next, env)
    ensures Inv(s) ==> Inv(r.next)
  {
    var panel := RectsOf(v, s, env).panel;
    BeginOpen(s, OpeningKeys(current), panel, ArrowX(StatusRectOf(s, env), panel))
  }

  /** `togglePopup`: closes an open popup, opens a closed one. */
  function TogglePanel(v: Version, s: State, env: Env, current: Option<MouseEvent>): (r: Step)
    ensures r.next.isOpen == !s.isOpen
    ensures s.isOpen ==> r == BeginClose(s)
    ensures !s.isOpen ==> r == OpenPanel(v, s, env, current)
    ensures Inv(s) ==> Inv(r.next)
  {
    var panel := RectsOf(v, s, env).panel;
    Toggle(s, OpeningKeys(current), panel, ArrowX(StatusRectOf(s, env), panel))
  }

  /**
    `panel.setFrame(_:display:animate:)`: the frame changes, animated when the
    panel is on screen; a change of size posts `windowDidResize`, which
    repositions the arrow.
  */
  function SetFrame(s: State, env: Env, frame: Rect): (r: Step)
    ensures r.notices == [Resized(s.visible)]
    ensures r.next.frame == frame
    ensures frame.w != s.frame.w || frame.h != s.frame.h ==> ArrowAligned(r.next, env)
    ensures frame.w == s.frame.w && frame.h == s.frame.h ==> r.next.arrowX == s.arrowX
    ensures r.next == s.(frame := frame, arrowX := r.next.arrowX)
  {
    var moved := s.(frame := frame);
    var next := if frame.w != s.frame.w || frame.h != s.frame.h
                then moved.(arrowX := ArrowX(StatusRectOf(moved, env), frame)) else moved;
    Step(next, [Resized(s.visible)])
  }

  /** `resizePopup(width:height:)`. */
  function Resize(s: State, env: Env, width: real, height: real): (r: Step)
    ensures r.next.frame == ResizeFrame(s.frame, width, height, env.inset, env.arrowHeight)
    ensures r.notices == [Resized(s.visible)]
    ensures ArrowAligned(s, env) ==> ArrowAligned(r.next, env)
    ensures r.next == s.(frame := r.next.frame, arrowX := r.next.arrowX)
  {
    SetFrame(s, env, ResizeFrame(s.frame, width, height, env.inset, env.arrowHeight))
  }

  /** `repositionPopupArrow`, run by `windowDidResize`. */
  function RepositionArrow(s: State, env: Env): (r: State)
    ensures ArrowAligned(r, env)
    ensures r == s.(arrowX := r.arrowX)
  {
    s.(arrowX := ArrowX(StatusRectOf(s, env), s.frame))
  }

  /**
    Whether the mouse-down monitor toggles: a click on this item that, in the
    newer controller, the caller's predicate (if any) accepts.
  */
  predicate MouseDownOpens(v: Version, env: Env, e: MouseEvent)
  {
    && ShouldTrigger(env.item, e)
    && (v == Legacy || env.shouldOpen.None? || env.shouldOpen.value(PressedModifiers(e.flags)))
  }

  /**
    The local left-mouse-down monitor: records the click and toggles when it
    belongs to this item. AppKit has already made the monitored event
    `NSApp.currentEvent`, so it is the current event `openPanel` sees.
  */
  function MouseDownMonitor(v: Version, s: State, env: Env, e: MouseEvent): (r: Step)
    ensures e.kind != LeftMouseDown || !MouseDownOpens(v, env, e) ==> r == Step(s, [])
    ensures e.kind == LeftMouseDown && MouseDownOpens(v, env, e) ==>
      r.next.lastMouseDown == Some(e) && r.next.isOpen == !s.isOpen
    ensures e.kind == LeftMouseDown && MouseDownOpens(v, env, e) ==>
      r == TogglePanel(v, s.(lastMouseDown := Some(e)), env, Some(e))
    ensures Inv(s) ==> Inv(r.next)
  {
    if e.kind == LeftMouseDown && MouseDownOpens(v, env, e) then
      TogglePanel(v, s.(lastMouseDown := Some(e)), env, Some(e))
    else Step(s, [])
  }

  /** Whether releasing the mouse closes the popup: it was opened by a click held longer than `LongPress`. */
  predicate MouseUpCloses(s: State, env: Env, e: MouseEvent)
  {
    && s.lastMouseDown.Some?
    && s.isOpen
    && ShouldTrigger(env.item, e)
    && e.timestamp - s.lastMouseDown.value.timestamp > LongPress
  }

  /**
    The local left-mouse-up monitor: after a long press on the item the
    release toggles, which can only close; anything else is ignored.
  */
  function MouseUpMonitor(v: Version, s: State, env: Env, e: MouseEvent): (r: Step)
    ensures e.kind != LeftMouseUp || !MouseUpCloses(s, env, e) ==> r == Step(s, [])
    ensures e.kind == LeftMouseUp && MouseUpCloses(s, env, e) ==> r == BeginClose(s)
    ensures s.isOpen || r.next.isOpen == s.isOpen
    ensures Inv(s) ==> Inv(r.next)
  {
    if e.kind == LeftMouseUp && MouseUpCloses(s, env, e) then TogglePanel(v, s, env, Some(e))
    else Step(s, [])
  }

  /** The events a version can receive: the older controller has no `resizePopup`. */
  predicate Offers(v: Version, ev: Event)
  {
    v == Current || !ev.ResizePopup?
  }

  /** One event. */
  function Apply(v: Version, s: State, env: Env, ev: Event): (r: Step)
    requires Offers(v, ev)
    ensures Inv(s) ==> Inv(r.next)
    ensures |r.notices| <= 1
    ensures r.notices == [DidOpen] ==> s.pendingOpen > 0 && r.next.pendingOpen == s.pendingOpen - 1
    ensures r.notices == [DidClose] ==> s.pendingClose > 0 && r.next.pendingClose == s.pendingClose - 1
    ensures r.notices == [] || r.notices[0].Resized? ==>
      r.next.pendingOpen <= s.pendingOpen && r.next.pendingClose <= s.pendingClose
    ensures r.notices != [] && r.notices[0].WillOpen? ==>
      r.next.pendingOpen == s.pendingOpen + 1 && r.next.pendingClose == s.pendingClose
    ensures r.notices == [WillClose] ==>
      r.next.pendingClose == s.pendingClose + 1 && r.next.pendingOpen == s.pendingOpen
    ensures ev.OpenPopup? ==> r.next.isOpen
    ensures ev.ClosePopup? || ev.WindowWillClose? ==> !r.next.isOpen
    ensures ev.TogglePopup? ==> r.next.isOpen == !s.isOpen
    ensures ev.OpenAnimationDone? || ev.CloseAnimationDone? || ev.ResizePopup? || ev.WindowDidResize? ==>
      r.next.isOpen == s.isOpen
  {
    match ev
    case OpenPopup(current) => OpenPanel(v, s, env, current)
    case ClosePopup => BeginClose(s)
    case TogglePopup(current) => TogglePanel(v, s, env, current)
    case ResizePopup(width, height) => Resize(s, env, width, height)
    case OpenAnimationDone => OpenDone(s)
    case CloseAnimationDone => CloseDone(s)
    case ResignKeyWindow => ResignKey(s)
    case WindowWillClose => CloseWindow(s)
    case WindowDidResize => Step(RepositionArrow(s, env), [])
    case MouseDown(e) => MouseDownMonitor(v, s, env, e)
    case MouseUp(e) => MouseUpMonitor(v, s, env, e)
  }

  /** Every event of `evs` is one version `v` can receive. */
  predicate AllOffered(v: Version, evs: seq<Event>)
  {
    forall i | 0 <= i < |evs| :: Offers(v, evs[i])
  }

  /** A sequence of events, with every callback invoked along the way. */
  function Run(v: Version, s: State, env: Env, evs: seq<Event>): (r: Step)
    requires AllOffered(v, evs)
    decreases |evs|
  {
    if evs == [] then Step(s, [])
    else
      var first := Apply(v, s, env, evs[0]);
      var rest := Run(v, first.next, env, evs[1..]);
      Step(rest.next, first.notices + rest.notices)
  }

  /** Every reachable state keeps the invariant. */
  lemma {:induction false} RunKeepsInv(v: Version, s: State, env: Env, evs: seq<Event>)
    requires AllOffered(v, evs)
    requires Inv(s)
    ensures Inv(Run(v, s, env, evs).next)
    decreases |evs|
  {
    if evs != [] {
      RunKeepsInv(v, Apply(v, s, env, evs[0]).next, env, evs[1..]);
    }
  }

  /** Running one event, then a second. */
  lemma RunPair(v: Version, s: State, env: Env, a: Event, b: Event)
    requires Offers(v, a) && Offers(v, b)
    ensures var first := Apply(v, s, env, a);
      var second := Apply(v, first.next, env, b);
      Run(v, s, env, [a, b]) == Step(second.next, first.notices + second.notices)
  {
    var first := Apply(v, s, env, a);
    var second := Apply(v, first.next, env, b);
    assert [a, b][1..] == [b];
    assert [b][1..] == [];
    assert Run(v, first.next, env, [b]) == Step(second.next, second.notices + []);
    assert second.notices + [] == second.notices;
  }

  /**
    One event never announces a completion that was not scheduled: each
    `didOpen` or `didClose` it announces consumes a pending animation, and
    each animation it schedules comes with its `willOpen` or `willClose`.
  */
  lemma StepBalanced(v: Version, s: State, env: Env, ev: Event)
    requires Offers(v, ev)
    ensures var r := Apply(v, s, env, ev);
      && Count(r.notices, KDidOpen) + r.next.pendingOpen <= Count(r.notices, KWillOpen) + s.pendingOpen
      && Count(r.notices, KDidClose) + r.next.pendingClose <= Count(r.notices, KWillClose) + s.pendingClose
  {
    var r := Apply(v, s, env, ev);
    if r.notices != [] {
      assert r.notices == [r.notices[0]];
      forall k: Kind {
        CountShort(r.notices[0], k);
      }
    }
  }

  /**
    Over any run, `didOpenPopup` never fires more often than `willOpenPopup`,
    nor `didClosePopup` more often than `willClosePopup`, beyond the
    animations already pending at the start.
  */
  lemma {:induction false} CallbacksBalanced(v: Version, s: State, env: Env, evs: seq<Event>)
    requires AllOffered(v, evs)
    ensures var r := Run(v, s, env, evs);
      && Count(r.notices, KDidOpen) + r.next.pendingOpen <= Count(r.notices, KWillOpen) + s.pendingOpen
      && Count(r.notices, KDidClose) + r.next.pendingClose <= Count(r.notices, KWillClose) + s.pendingClose
    decreases |evs|
  {
    if evs != [] {
      var first := Apply(v, s, env, evs[0]);
      var rest := Run(v, first.next, env, evs[1..]);
      StepBalanced(v, s, env, evs[0]);
      CallbacksBalanced(v, first.next, env, evs[1..]);
      CountAppend(first.notices, rest.notices, KDidOpen);
      CountAppend(first.notices, rest.notices, KWillOpen);
      CountAppend(first.notices, rest.notices, KDidClose);
      CountAppend(first.notices, rest.notices, KWillClose);
    }
  }

  /**
    A quick click on the closed item opens the popup and releasing it keeps
    it open.
  */
  lemma QuickClickStaysOpen(v: Version, s: State, env: Env, down: MouseEvent, up: MouseEvent)
    requires Inv(s) && !s.isOpen
    requires down.kind == LeftMouseDown && MouseDownOpens(v, env, down)
    requires up.kind == LeftMouseUp && up.timestamp - down.timestamp <= LongPress
    ensures Run(v, s, env, [MouseDown(down), MouseUp(up)]).next.isOpen
  {
    RunPair(v, s, env, MouseDown(down), MouseUp(up));
    var first := MouseDownMonitor(v, s, env, down);
    assert first.next.lastMouseDown == Some(down) && first.next.isOpen;
    assert !MouseUpCloses(first.next, env, up);
    assert MouseUpMonitor(v, first.next, env, up) == Step(first.next, []);
  }

  /**
    Holding the click on the closed item longer than `LongPress` and
    releasing it on the item opens and then closes the popup, like a menu.
  */
  lemma LongPressClosesOnRelease(v: Version, s: State, env: Env, down: MouseEvent, up: MouseEvent)
    requires Inv(s) && !s.isOpen
    requires down.kind == LeftMouseDown && MouseDownOpens(v, env, down)
    requires up.kind == LeftMouseUp && ShouldTrigger(env.item, up) && up.timestamp - down.timestamp > LongPress
    ensures var r := Run(v, s, env, [MouseDown(down), MouseUp(up)]);
      !r.next.isOpen && r.notices == [WillOpen(PressedModifiers(down.flags)), WillClose]
  {
    RunPair(v, s, env, MouseDown(down), MouseUp(up));
    var first := MouseDownMonitor(v, s, env, down);
    assert first == OpenPanel(v, s.(lastMouseDown := Some(down)), env, Some(down));
    assert first.next.lastMouseDown == Some(down) && first.next.isOpen;
    assert MouseUpCloses(first.next, env, up);
    var second := MouseUpMonitor(v, first.next, env, up);
    assert second == BeginClose(first.next);
  }

  /**
    Closing the panel window closes the popup and takes the panel off screen
    at once, so a resign-key that follows finds it gone and does not close a
    second time.
  */
  lemma WindowCloseThenResignKey(v: Version, s: State, env: Env)
    requires Inv(s)
    ensures var r := Run(v, s, env, [WindowWillClose, ResignKeyWindow]);
      && r.notices == [WillClose]
      && !r.next.isOpen && !r.next.visible && r.next.highlighted == s.highlighted
      && Inv(r.next)
  {
    RunPair(v, s, env, WindowWillClose, ResignKeyWindow);
  }

  /**
    In the newer controller the caller's predicate can veto a click; without
    a predicate every triggering click toggles.
  */
  lemma ShouldOpenVeto(s: State, env: Env, e: MouseEvent)
    requires e.kind == LeftMouseDown && ShouldTrigger(env.item, e)
    ensures env.shouldOpen.None? ==> MouseDownMonitor(Current, s, env, e).next.isOpen == !s.isOpen
    ensures env.shouldOpen.Some? && !env.shouldOpen.value(PressedModifiers(e.flags)) ==>
      MouseDownMonitor(Current, s, env, e) == Step(s, [])
  {
  }

  /** Whatever single event arrives, an open popup's arrow keeps pointing at the status item. */
  lemma OpenArrowStaysAligned(v: Version, s: State, env: Env, ev: Event)
    requires Offers(v, ev)
    requires s.isOpen ==> ArrowAligned(s, env)
    ensures var t := Apply(v, s, env, ev).next;
      t.isOpen ==> ArrowAligned(t, env)
  {
    match ev
    case MouseDown(e) =>
      if e.kind == LeftMouseDown && MouseDownOpens(v, env, e) && s.isOpen {
        assert !Apply(v, s, env, ev).next.isOpen;
      }
    case _ =>
  }

  /**
    Along any run under one environment (the status item and the screens stay
    put), whenever the popup is open its arrow points at the status item.
    For the older version this holds of its corrected open.
  */
  lemma {:induction false} RunKeepsArrowAligned(v: Version, s: State, env: Env, evs: seq<Event>)
    requires AllOffered(v, evs)
    requires s.isOpen ==> ArrowAligned(s, env)
    ensures var t := Run(v, s, env, evs).next;
      t.isOpen ==> ArrowAligned(t, env)
    decreases |evs|
  {
    if evs != [] {
      OpenArrowStaysAligned(v, s, env, evs[0]);
      RunKeepsArrowAligned(v, Apply(v, s, env, evs[0]).next, env, evs[1..]);
    }
  }
}

=== FILE: geometry.dfy ===
/**
  Panel geometry: `CGRect` arithmetic over exact reals, the placement of the
  panel under the status item, its resizing, the arrow offset, and the
  legacy button hit test.

  A rectangle keeps its raw origin and size; the `Min`/`Max`/`Mid`/`Width`/
  `Height` accessors are those of `CGRect`, which standardize a negative size
  first.
*/
module Geometry {
  import opened Optionals

  datatype Rect = Rect(x: real, y: real, w: real, h: real)

  datatype Point = Point(x: real, y: real)

  const Zero: Rect := Rect(0.0, 0.0, 0.0, 0.0)

  function Abs(v: real): real
  {
    if v < 0.0 then -v else v
  }

  function MinX(r: Rect): real { if r.w < 0.0 then r.x + r.w else r.x }
  function MaxX(r: Rect): real { if r.w < 0.0 then r.x else r.x + r.w }
  function MidX(r: Rect): real { r.x + r.w / 2.0 }
  function MinY(r: Rect): real { if r.h < 0.0 then r.y + r.h else r.y }
  function MaxY(r: Rect): real { if r.h < 0.0 then r.y else r.y + r.h }
  function Width(r: Rect): real { Abs(r.w) }
  function Height(r: Rect): real { Abs(r.h) }

  predicate IsIntegral(v: real)
  {
    v.Floor as real == v
  }

  /**
    C's `round`: the nearest integer, halfway cases away from zero. The three
    inequalities below single out exactly that integer.
  */
  function Round(v: real): (r: real)
    ensures IsIntegral(r)
    ensures v - 0.5 <= r <= v + 0.5
    ensures r == v + 0.5 ==> v > 0.0
    ensures r == v - 0.5 ==> v < 0.0
  {
    if v >= 0.0 then
      var n := (v + 0.5).Floor;
      FloorBounds(v + 0.5);
      IntIsIntegral(n);
      n as real
    else
      var n := (-v + 0.5).Floor;
      FloorBounds(-v + 0.5);
      IntIsIntegral(-n);
      -(n as real)
  }

  lemma FloorBounds(v: real)
    ensures v.Floor as real <= v < v.Floor as real + 1.0
  {
  }

  lemma IntIsIntegral(n: int)
    ensures IsIntegral(n as real)
  {
  }

  /**
    `statusRect(forWindow:)`: the status button's screen rectangle (zero when
    unknown) moved down by its own height, so that its top edge is where the
    button's bottom edge was.
  */
  function StatusRect(global: Option<Rect>): (r: Rect)
    ensures var g := OrElse(global, Zero);
      && (g.h >= 0.0 ==> MaxY(r) == MinY(g) && MinY(r) == MinY(g) - Height(g))
      && r.x == g.x && r.w == g.w && r.h == g.h
      && Height(r) == Height(g)
  {
    var g := OrElse(global, Zero);
    g.(y := MinY(g) - Height(g))
  }

  /**
    `resizePopup(width:height:)`: the frame for a content size, grown by the
    inset on every side and by the arrow on top. The top edge stays put; the
    horizontal centre stays put.
  */
  function ResizeFrame(frame: Rect, width: real, height: real, inset: real, arrowHeight: real): (r: Rect)
    ensures r.h == height + arrowHeight + 2.0 * inset
    ensures r.w == width + 2.0 * inset
    ensures r.y + r.h == frame.y + frame.h
    ensures r.x + r.w / 2.0 == frame.x + frame.w / 2.0
    ensures MidX(r) == MidX(frame)
  {
    var newH := height + arrowHeight + inset * 2.0;
    var newW := width + inset * 2.0;
    var f1 := frame.(y := frame.y - (newH - frame.h), h := newH);
    var widthDifference := newW - f1.w;
    if widthDifference != 0.0 then f1.(x := f1.x - widthDifference / 2.0, w := newW) else f1
  }

  /** The panel rectangle horizontally centred (to a whole point) under the status rect, hanging from its top. */
  function PlaceUnder(status: Rect, panel: Rect): (r: Rect)
    ensures r.w == panel.w && r.h == panel.h
    ensures IsIntegral(r.x)
    ensures Abs(r.x + Width(panel) / 2.0 - MidX(status)) <= 0.5
    ensures r.y + r.h == MaxY(status)
  {
    panel.(x := Round(MidX(status) - Width(panel) / 2.0), y := MaxY(status) - panel.h)
  }

  /**
    Keeps the panel's right edge at least the arrow height inside the screen's
    right edge, by moving it left just as far as needed.
  */
  function ClampRight(panel: Rect, screen: Rect, arrowHeight: real): (r: Rect)
    ensures MaxX(r) <= MaxX(screen) - arrowHeight
    ensures r.w == panel.w && r.h == panel.h && r.y == panel.y
    ensures r.x <= panel.x
    ensures MaxX(panel) <= MaxX(screen) - arrowHeight ==> r == panel
    ensures MaxX(panel) > MaxX(screen) - arrowHeight ==> MaxX(r) == MaxX(screen) - arrowHeight
  {
    var limit := MaxX(screen) - arrowHeight;
    if MaxX(panel) > limit then panel.(x := panel.x - (MaxX(panel) - limit)) else panel
  }

  /** The three rectangles `rects(forPanel:)` returns. */
  datatype Rects = Rects(screen: Rect, status: Rect, panel: Rect)

  const NoRects: Rects := Rects(Zero, Zero, Zero)

  /**
    `rects(forPanel:)`: without a screen everything is zero; otherwise the
    current frame is placed under the status rect and clamped to the screen,
    keeping its size.
  */
  function PanelRects(screen: Option<Rect>, status: Rect, frame: Rect, arrowHeight: real): (r: Rects)
    ensures screen.None? ==> r == NoRects
    ensures screen.Some? ==>
      && r.screen == screen.value && r.status == status
      && r.panel.w == frame.w && r.panel.h == frame.h
      && MaxX(r.panel) <= MaxX(screen.value) - arrowHeight
      && r.panel.y + r.panel.h == MaxY(status)
      && r.panel.x <= PlaceUnder(status, frame).x
    ensures screen.Some? && MaxX(PlaceUnder(status, frame)) <= MaxX(screen.value) - arrowHeight ==>
      r.panel == PlaceUnder(status, frame)
    ensures screen.Some? && MaxX(PlaceUnder(status, frame)) > MaxX(screen.value) - arrowHeight ==>
      MaxX(r.panel) == MaxX(screen.value) - arrowHeight
  {
    match screen
    case None => NoRects
    case Some(s) => Rects(s, status, ClampRight(PlaceUnder(status, frame), s, arrowHeight))
  }

  /** The older `rects(forPanel:)` sizes the panel from its content: one point of border per side plus the arrow. */
  function LegacyPanelSize(frame: Rect, content: Rect, arrowHeight: real): (r: Rect)
    ensures r.h == Height(content) + 2.0 + arrowHeight
    ensures r.w == Width(content) + 2.0
    ensures r.x == frame.x && r.y == frame.y
  {
    frame.(h := Height(content) + 2.0 + arrowHeight, w := Width(content) + 2.0)
  }

  /**
    The older `rects(forPanel:)`: no main-screen fallback, size from the
    content, then the same placement and clamp, except that the panel hangs
    from the status rect by its standardized height (`panelRect.height`)
    rather than the raw one.
  */
  function LegacyPanelRects(screen: Option<Rect>, status: Rect, frame: Rect, content: Rect, arrowHeight: real): (r: Rects)
    ensures screen.None? ==> r == NoRects
    ensures screen.Some? ==>
      && r.screen == screen.value && r.status == status
      && r.panel.h == Height(content) + 2.0 + arrowHeight
      && r.panel.w == Width(content) + 2.0
      && MaxX(r.panel) <= MaxX(screen.value) - arrowHeight
      && r.panel.y + Height(r.panel) == MaxY(status)
      && r.panel.x <= LegacyPlaceUnder(status, LegacyPanelSize(frame, content, arrowHeight)).x
    ensures var placed := LegacyPlaceUnder(status, LegacyPanelSize(frame, content, arrowHeight));
      screen.Some? && MaxX(placed) <= MaxX(screen.value) - arrowHeight ==> r.panel == placed
    ensures var placed := LegacyPlaceUnder(status, LegacyPanelSize(frame, content, arrowHeight));
      screen.Some? && MaxX(placed) > MaxX(screen.value) - arrowHeight ==>
        MaxX(r.panel) == MaxX(screen.value) - arrowHeight
  {
    match screen
    case None => NoRects
    case Some(s) =>
      var sized := LegacyPanelSize(frame, content, arrowHeight);
      Rects(s, status, ClampRight(LegacyPlaceUnder(status, sized), s, arrowHeight))
  }

  /**
    The older placement: horizontally centred (to a whole point) under the
    status rect, hanging from its top by the standardized height.
  */
  function LegacyPlaceUnder(status: Rect, panel: Rect): (r: Rect)
    ensures r.w == panel.w && r.h == panel.h
    ensures IsIntegral(r.x)
    ensures Abs(r.x + Width(panel) / 2.0 - MidX(status)) <= 0.5
    ensures r.y + Height(r) == MaxY(status)
  {
    PlaceUnder(status, panel).(y := MaxY(status) - Height(panel))
  }

  /**
    `repositionPopupArrow` (and the older `windowDidResize`): the arrow's x
    offset inside the panel, so that the arrow tip sits at the rounded centre
    of the status item.
  */
  function ArrowX(status: Rect, panel: Rect): (r: real)
    ensures MinX(panel) + r == Round(MidX(status))
    ensures Abs(MinX(panel) + r - MidX(status)) <= 0.5
  {
    Round(MidX(status)) - MinX(panel)
  }

  /** `NSPointInRect`: the lower and left edges are inside, the upper and right edges are not. */
  predicate PointInRect(p: Point, r: Rect)
  {
    r.x <= p.x < r.x + r.w && r.y <= p.y < r.y + r.h
  }

  /** `boundsContain(point:)`: the hit test against the button's bounds made one point taller. */
  function BoundsContain(bounds: Rect, p: Point): (r: bool)
    ensures r <==> PointInRect(p, bounds) || OnTopBand(bounds, p)
  {
    PointInRect(p, bounds.(h := bounds.h + 1.0))
  }

  /** Within the bounds' columns, at or above their bottom, and less than one point above their top. */
  predicate OnTopBand(bounds: Rect, p: Point)
  {
    && bounds.x <= p.x < bounds.x + bounds.w
    && bounds.y <= p.y
    && bounds.y + bounds.h <= p.y < bounds.y + bounds.h + 1.0
  }

  /** The hit test never rejects a point the plain bounds accept. */
  lemma BoundsContainWidens(bounds: Rect, p: Point)
    requires PointInRect(p, bounds)
    ensures BoundsContain(bounds, p)
  {
  }

  /** A point on the upper edge is accepted by the hit test though not by the plain bounds. */
  lemma UpperEdgeContained(bounds: Rect, p: Point)
    requires bounds.h >= 0.0
    requires bounds.x <= p.x < bounds.x + bounds.w && p.y == bounds.y + bounds.h
    ensures BoundsContain(bounds, p)
    ensures !PointInRect(p, bounds)
  {
  }

  /** What the hit test adds to the bounds is a band one point tall above them, no wider than them. */
  lemma BoundsContainAddsOnlyTopBand(bounds: Rect, p: Point)
    requires BoundsContain(bounds, p) && !PointInRect(p, bounds)
    ensures bounds.x <= p.x < bounds.x + bounds.w
    ensures bounds.y + bounds.h <= p.y < bounds.y + bounds.h + 1.0
  {
  }

  /** Resizing again to the same content size changes nothing. */
  lemma ResizeIdempotent(frame: Rect, width: real, height: real, inset: real, arrowHeight: real)
    ensures var once := ResizeFrame(frame, width, height, inset, arrowHeight);
      ResizeFrame(once, width, height, inset, arrowHeight) == once
  {
  }

  /** Two resizes in a row land where the second alone would have. */
  lemma ResizeLastWins(frame: Rect, w1: real, h1: real, w2: real, h2: real, inset: real, arrowHeight: real)
    ensures ResizeFrame(ResizeFrame(frame, w1, h1, inset, arrowHeight), w2, h2, inset, arrowHeight)
         == ResizeFrame(frame, w2, h2, inset, arrowHeight)
  {
  }

  /**
    When the clamp does not move the panel, the arrow sits within one point
    of the panel's horizontal centre.
  */
  lemma ArrowCentredWhenUnclamped(status: Rect, frame: Rect, screen: Rect, arrowHeight: real)
    requires frame.w >= 0.0
    requires MaxX(PlaceUnder(status, frame)) <= MaxX(screen) - arrowHeight
    ensures var panel := PanelRects(Some(screen), status, frame, arrowHeight).panel;
      Abs(ArrowX(status, panel) - Width(panel) / 2.0) <= 1.0
  {
  }

  /**
    When the clamp moves the panel, the arrow moves right of centre by exactly
    the panel's overshoot past the limit, so it still points at the status
    item; when it does not, the arrow stays where placement put it.
  */
  lemma ArrowFollowsClamp(status: Rect, frame: Rect, screen: Rect, arrowHeight: real)
    requires frame.w >= 0.0
    ensures var placed := PlaceUnder(status, frame);
      var panel := PanelRects(Some(screen), status, frame, arrowHeight).panel;
      var limit := MaxX(screen) - arrowHeight;
      && (MaxX(placed) > limit ==> ArrowX(status, panel) == ArrowX(status, placed) + (MaxX(placed) - limit))
      && (MaxX(placed) <= limit ==> ArrowX(status, panel) == ArrowX(status, placed))
  {
  }

  /**
    The older panel, when the clamp does not move it, also has its arrow
    within one point of its horizontal centre.
  */
  lemma LegacyArrowCentredWhenUnclamped(status: Rect, frame: Rect, content: Rect, screen: Rect, arrowHeight: real)
    requires Width(content) + 2.0 >= 0.0
    requires MaxX(LegacyPlaceUnder(status, LegacyPanelSize(frame, content, arrowHeight))) <= MaxX(screen) - arrowHeight
    ensures var panel := LegacyPanelRects(Some(screen), status, frame, content, arrowHeight).panel;
      Abs(ArrowX(status, panel) - Width(panel) / 2.0) <= 1.0
  {
  }
}

=== FILE: legacy.dfy ===
/**
  What only the older `MBPopupController` (the `MBPopup/` directory) does:
  its `openPanel` as written, which leaves the arrow to `windowDidResize`, and
  the properties of the older version stated through `Controller` with
  `Version` `Legacy`.
*/
module LegacyController {
  import opened Optionals
  import opened StatusItems
  import opened Geometry
  import opened PopupState
  import opened Controller

  /** The default `MBPopup.arrowSize` is 12 by 8 points. */
  const DefaultArrowHeight: real := 8.0

  /**
    The older `openPanel` as written: it sets the frame but never calls for
    the arrow, so the arrow moves only if the frame's size changed (which
    posts `windowDidResize`).
  */
  function OpenPanelAsWritten(s: State, env: Env, current: Option<MouseEvent>): (r: Step)
    ensures r.next.isOpen && r.notices == [WillOpen(OpeningKeys(current))]
    ensures r.next.frame == RectsOf(Legacy, s, env).panel
    ensures r.next.frame.w == s.frame.w && r.next.frame.h == s.frame.h ==> r.next.arrowX == s.arrowX
    ensures r.next.frame.w != s.frame.w || r.next.frame.h != s.frame.h ==> ArrowAligned(r.next, env)
  {
    var panel := RectsOf(Legacy, s, env).panel;
    var arrow := if panel.w != s.frame.w || panel.h != s.frame.h
                 then ArrowX(StatusRectOf(s, env), panel) else s.arrowX;
    BeginOpen(s, OpeningKeys(current), panel, arrow)
  }

  /**
    The stale arrow: a panel last shown unclamped, reopened under an item
    near the right edge of the screen, keeps its size, so the clamp moves it
    left but its arrow is not moved with it. The corrected open aims it.
  */
  lemma StaleArrowAfterOpen()
    ensures var item := StatusItem(StatusItemClass, Some(Button(7, Some(1))), None, None);
      var win := Window(1, "NSStatusBarWindow", Some(item));
      var down := MouseEvent(LeftMouseDown, Some(win), 0, 0, 0.0);
      var env := Env(item, w => Some(Rect(0.0, 0.0, 1440.0, 900.0)), None, w => Rect(1420.0, 878.0, 20.0, 22.0),
                     DefaultArrowHeight, 0.0, Rect(0.0, 0.0, 198.0, 98.0), None);
      var s := State(false, false, false, true, false, Rect(10.0, 770.0, 200.0, 108.0), 100.0, Some(down), 0, 0);
      var r := OpenPanelAsWritten(s, env, None);
      && Inv(s) && r.next.isOpen
      && r.next.frame == Rect(1232.0, 770.0, 200.0, 108.0)
      && r.next.arrowX == 100.0
      && ArrowX(StatusRectOf(r.next, env), r.next.frame) == 198.0
      && !ArrowAligned(r.next, env)
      && OpenPanel(Legacy, s, env, None).next.arrowX == 198.0
  {
    var item := StatusItem(StatusItemClass, Some(Button(7, Some(1))), None, None);
    var win := Window(1, "NSStatusBarWindow", Some(item));
    var down := MouseEvent(LeftMouseDown, Some(win), 0, 0, 0.0);
    var env := Env(item, w => Some(Rect(0.0, 0.0, 1440.0, 900.0)), None, w => Rect(1420.0, 878.0, 20.0, 22.0),
                   DefaultArrowHeight, 0.0, Rect(0.0, 0.0, 198.0, 98.0), None);
    var s := State(false, false, false, true, false, Rect(10.0, 770.0, 200.0, 108.0), 100.0, Some(down), 0, 0);
    assert IsStatusBarWindowClass(win.className);
    assert LastClickedWindow(s) == Some(1);
    assert StatusRectOf(s, env) == Rect(1420.0, 856.0, 20.0, 22.0);
    assert Round(1330.0) == 1330.0;
    assert Round(1430.0) == 1430.0;
    assert RectsOf(Legacy, s, env).panel == Rect(1232.0, 770.0, 200.0, 108.0);
  }

  /** The older toggle flips `isOpen`, so toggling twice restores it. */
  lemma ToggleTwice(s: State, env: Env, c1: Option<MouseEvent>, c2: Option<MouseEvent>)
    ensures var once := Apply(Legacy, s, env, TogglePopup(c1)).next;
      && once.isOpen == !s.isOpen
      && Apply(Legacy, once, env, TogglePopup(c2)).next.isOpen == s.isOpen
  {
  }

  /** The older mouse-down monitor has no caller predicate: every triggering click toggles, whatever `shouldOpen` says. */
  lemma MouseDownIgnoresPredicate(s: State, env: Env, e: MouseEvent)
    requires e.kind == LeftMouseDown && ShouldTrigger(env.item, e)
    ensures Apply(Legacy, s, env, MouseDown(e)).next.isOpen == !s.isOpen
    ensures Apply(Legacy, s, env, MouseDown(e)).next.lastMouseDown == Some(e)
  {
  }

  /** The older `windowDidResignKey`: closes exactly when the panel is on screen and not fading in. */
  lemma ResignKeyRule(s: State, env: Env)
    ensures var r := Apply(Legacy, s, env, ResignKeyWindow);
      && (r.notices == [WillClose] <==> s.visible && !s.isOpening)
      && (r.notices == [] <==> !(s.visible && !s.isOpening))
  {
  }

  /** The older fade-out handler does nothing once the popup has been reopened. */
  lemma CloseDoneAfterReopen(s: State, env: Env, current: Option<MouseEvent>)
    requires Inv(s) && s.isOpen
    ensures var closing := Apply(Legacy, s, env, ClosePopup).next;
      var reopened := Apply(Legacy, closing, env, OpenPopup(current)).next;
      var r := Apply(Legacy, reopened, env, CloseAnimationDone);
      r.notices == [] && r.next.isOpen && r.next.visible && r.next.highlighted
  {
  }

  /** A programmatic open before any click has no screen to use: the panel gets the zero rect. */
  lemma NoClickNoScreen(s: State, env: Env, current: Option<MouseEvent>)
    requires s.lastMouseDown.None?
    ensures Apply(Legacy, s, env, OpenPopup(current)).next.frame == Zero
  {
  }

  /** The older `windowDidResize`: the arrow offset is the rounded status centre less the panel's left edge. */
  lemma ResizeAimsArrow(s: State, env: Env)
    ensures var t := Apply(Legacy, s, env, WindowDidResize).next;
      t.arrowX == Round(MidX(StatusRectOf(s, env))) - MinX(s.frame) && t.frame == s.frame
  {
  }
}

=== FILE: modifiers.dfy ===
/**
  Modifier-key classification of a mouse event (`NSEvent.pressedModifiers`
  and its older twin `mbpopup_pressedModifiers`).

  A modifier-flag word is an unsigned 64-bit value. Its low 16 bits are
  device-dependent (which physical Shift key, and so on) and are ignored;
  bits 16 to 31 are the device-independent modifiers. The bit positions are
  those of AppKit's `NSEvent.ModifierFlags`.
*/
module Modifiers {

  type Flags = bv64

  /** The named device-independent modifiers of `NSEvent.ModifierFlags`. */
  datatype Modifier = CapsLock | Shift | Control | Option | Command | NumericPad | Help | Function

  function Bit(m: Modifier): Flags
  {
    match m
    case CapsLock => 0x1_0000
    case Shift => 0x2_0000
    case Control => 0x4_0000
    case Option => 0x8_0000
    case Command => 0x10_0000
    case NumericPad => 0x20_0000
    case Help => 0x40_0000
    case Function => 0x80_0000
  }

  const AllModifiers: set<Modifier> :=
    {CapsLock, Shift, Control, Option, Command, NumericPad, Help, Function}

  /** `NSEvent.ModifierFlags.deviceIndependentFlagsMask`. */
  const DeviceIndependentMask: Flags := 0xFFFF_0000

  /** Device-independent bits that carry no named modifier (bits 24 to 31). */
  const UnnamedMask: Flags := 0xFF00_0000

  /** The flags with every device-dependent bit cleared. */
  function Masked(f: Flags): Flags
  {
    f & DeviceIndependentMask
  }

  /** Whether `m`'s bit is set in `f`. */
  predicate IsSet(f: Flags, m: Modifier)
  {
    f & Bit(m) != 0
  }

  /** The named modifiers whose bit is set in `f`. */
  function Held(f: Flags): (r: set<Modifier>)
    ensures r <= AllModifiers
  {
    set m | m in AllModifiers && IsSet(f, m)
  }

  /** Exactly the modifiers `keys` are held, and no other device-independent bit is set. */
  predicate HoldsExactly(f: Flags, keys: set<Modifier>)
  {
    Held(f) == keys && f & UnnamedMask == 0
  }

  /** `MBPopupKeys`: the modifier combinations the popup reports to its caller. */
  datatype PopupKeys = KeysNone | KeysShift | KeysOption | KeysShiftOption

  /**
    `pressedModifiers`: only an exact Shift, Option or Shift+Option chord is
    reported; any other combination, including no modifier at all, reads as
    `KeysNone`.
  */
  function PressedModifiers(f: Flags): (r: PopupKeys)
    ensures r == KeysShiftOption <==> HoldsExactly(f, {Shift, Option})
    ensures r == KeysShift <==> HoldsExactly(f, {Shift})
    ensures r == KeysOption <==> HoldsExactly(f, {Option})
  {
    ExactChords(f);
    Chord(Masked(f))
  }

  /** The comparison chain on an already-masked flag word. */
  function Chord(clear: Flags): PopupKeys
  {
    if clear == Bit(Shift) | Bit(Option) then KeysShiftOption
    else if clear == Bit(Shift) then KeysShift
    else if clear == Bit(Option) then KeysOption
    else KeysNone
  }

  /** The device-independent part of a flag word is the union of its held modifiers' bits and its unnamed bits. */
  lemma MaskedSplits(f: Flags)
    ensures Masked(f) ==
      (f & Bit(CapsLock)) | (f & Bit(Shift)) | (f & Bit(Control)) | (f & Bit(Option)) |
      (f & Bit(Command)) | (f & Bit(NumericPad)) | (f & Bit(Help)) | (f & Bit(Function)) |
      (f & UnnamedMask)
  {
  }

  /** Membership in `Held`, one modifier at a time. */
  lemma HeldMembers(f: Flags)
    ensures CapsLock in Held(f) <==> f & Bit(CapsLock) != 0
    ensures Shift in Held(f) <==> f & Bit(Shift) != 0
    ensures Control in Held(f) <==> f & Bit(Control) != 0
    ensures Option in Held(f) <==> f & Bit(Option) != 0
    ensures Command in Held(f) <==> f & Bit(Command) != 0
    ensures NumericPad in Held(f) <==> f & Bit(NumericPad) != 0
    ensures Help in Held(f) <==> f & Bit(Help) != 0
    ensures Function in Held(f) <==> f & Bit(Function) != 0
  {
    HeldMember(f, CapsLock);
    HeldMember(f, Shift);
    HeldMember(f, Control);
    HeldMember(f, Option);
    HeldMember(f, Command);
    HeldMember(f, NumericPad);
    HeldMember(f, Help);
    HeldMember(f, Function);
  }

  /** A modifier is held exactly when its bit is set. */
  lemma HeldMember(f: Flags, m: Modifier)
    ensures m in Held(f) <==> IsSet(f, m)
  {
    assert m in AllModifiers;
  }

  /**
    Comparing the masked word against one chord's bits is the same as asking
    that exactly that chord is held.
  */
  lemma ExactChords(f: Flags)
    ensures Masked(f) == Bit(Shift) | Bit(Option) <==> HoldsExactly(f, {Shift, Option})
    ensures Masked(f) == Bit(Shift) <==> HoldsExactly(f, {Shift})
    ensures Masked(f) == Bit(Option) <==> HoldsExactly(f, {Option})
    ensures Masked(f) == Bit(Command) <==> HoldsExactly(f, {Command})
  {
    MaskedSplits(f);
    HeldMembers(f);
    var h := Held(f);
    assert h == {Shift, Option} <==>
      (CapsLock !in h && Shift in h && Control !in h && Option in h &&
       Command !in h && NumericPad !in h && Help !in h && Function !in h);
    assert h == {Shift} <==>
      (CapsLock !in h && Shift in h && Control !in h && Option !in h &&
       Command !in h && NumericPad !in h && Help !in h && Function !in h);
    assert h == {Option} <==>
      (CapsLock !in h && Shift !in h && Control !in h && Option in h &&
       Command !in h && NumericPad !in h && Help !in h && Function !in h);
    assert h == {Command} <==>
      (CapsLock !in h && Shift !in h && Control !in h && Option !in h &&
       Command in h && NumericPad !in h && Help !in h && Function !in h);
  }

  /** Two flag words that agree on their device-independent bits classify the same. */
  lemma OnlyDeviceIndependentBitsMatter(f: Flags, g: Flags)
    requires Masked(f) == Masked(g)
    ensures PressedModifiers(f) == PressedModifiers(g)
  {
  }

  /** Shift together with Command is not one of the reported chords. */
  lemma ShiftCommandIsNone(f: Flags)
    requires HoldsExactly(f, {Shift, Command})
    ensures PressedModifiers(f) == KeysNone
  {
  }

  /**
    Setting device-dependent bits (which physical Shift or Option key was
    pressed) never changes the classification.
  */
  lemma DeviceDependentBitsIgnored(f: Flags, d: Flags)
    requires d & DeviceIndependentMask == 0
    ensures PressedModifiers(f | d) == PressedModifiers(f)
  {
    assert Masked(f | d) == Masked(f);
  }
}

=== FILE: optionals.dfy ===
/** Swift optionals: `nil` or a wrapped value. */
module Optionals {

  datatype Option<+T> = None | Some(value: T)

  /** Swift's nil-coalescing `o ?? d`. */
  function OrElse<T>(o: Option<T>, d: T): (r: T)
    ensures o.Some? ==> r == o.value
    ensures o.None? ==> r == d
  {
    match o
    case Some(v) => v
    case None => d
  }
}

=== FILE: popupstate.dfy ===
/**
  The open/close state machine the controller keeps in `isOpen` and
  `isOpening`, together with the flags it drives: the status button's
  highlight, the content view's `isHidden`, and whether the panel is on
  screen.

  The fade animations finish later, in completion handlers. Here each
  handler is an explicit event; `pendingOpen` and `pendingClose` count the
  handlers scheduled and not yet run, and a completion event with none
  scheduled does nothing.
*/
module PopupState {
  import opened Optionals
  import opened Modifiers
  import opened StatusItems
  import opened Geometry

  /**
    What the caller can observe, in order: the four lifecycle callbacks, and
    `Resized`, which is not a callback but marks a `setFrame` call and
    whether it was animated.
  */
  datatype Notice = WillOpen(keys: PopupKeys) | DidOpen | WillClose | DidClose | Resized(animated: bool)

  datatype State = State(
    isOpen: bool,
    isOpening: bool,
    highlighted: bool,
    contentHidden: bool,
    visible: bool,
    frame: Rect,
    arrowX: real,
    lastMouseDown: Option<MouseEvent>,
    pendingOpen: nat,
    pendingClose: nat)

  /** A transition's resulting state and the callbacks it invoked. */
  datatype Step = Step(next: State, notices: seq<Notice>)

  /** A freshly set-up controller: closed, panel off screen, nothing clicked yet. */
  function Init(frame: Rect): (s: State)
    ensures Inv(s) && Settled(s) && !s.isOpen && !s.visible && !s.highlighted
  {
    State(false, false, false, false, false, frame, 0.0, None, 0, 0)
  }

  /**
    What holds between events: the button is highlighted while the panel is
    on screen; an open popup is on screen with its content shown; a button
    still highlighted while closed is waiting for its fade-out; and the
    opening guard is up only while a fade-in is scheduled. (The highlight can
    outlast the panel: closing the window orders it out at once.)
  */
  ghost predicate Inv(s: State)
  {
    && (s.visible ==> s.highlighted)
    && (s.isOpen ==> s.visible && !s.contentHidden)
    && (s.highlighted && !s.isOpen ==> s.pendingClose > 0)
    && (s.isOpening ==> s.pendingOpen > 0)
  }

  /** No animation is running. */
  predicate Settled(s: State)
  {
    s.pendingOpen == 0 && s.pendingClose == 0 && !s.isOpening
  }

  /**
    `openPanel`: the opening guard goes up, `willOpenPopup` is told the keys,
    `isOpen` is set (which highlights the button at once), the content is
    shown, the panel takes its new frame and arrow and is ordered front, and
    a fade-in is scheduled.
  */
  function BeginOpen(s: State, keys: PopupKeys, frame: Rect, arrowX: real): (r: Step)
    ensures r.notices == [WillOpen(keys)]
    ensures r.next.isOpen && r.next.isOpening && r.next.highlighted && r.next.visible && !r.next.contentHidden
    ensures r.next.frame == frame && r.next.arrowX == arrowX
    ensures r.next.pendingOpen == s.pendingOpen + 1 && r.next.pendingClose == s.pendingClose
    ensures r.next.lastMouseDown == s.lastMouseDown
    ensures Inv(s) ==> Inv(r.next)
  {
    var next := s.(isOpening := true, isOpen := true, highlighted := true, contentHidden := false,
                   frame := frame, arrowX := arrowX, visible := true, pendingOpen := s.pendingOpen + 1);
    Step(next, [WillOpen(keys)])
  }

  /**
    `closePanel`: `willClosePopup` runs, `isOpen` is cleared, the content is
    hidden, and a fade-out is scheduled. The button stays highlighted and the
    panel stays on screen until the fade-out finishes.
  */
  function BeginClose(s: State): (r: Step)
    ensures r.notices == [WillClose]
    ensures !r.next.isOpen && r.next.contentHidden
    ensures r.next.highlighted == s.highlighted && r.next.visible == s.visible
    ensures r.next.isOpening == s.isOpening && r.next.frame == s.frame && r.next.arrowX == s.arrowX
    ensures r.next.pendingClose == s.pendingClose + 1 && r.next.pendingOpen == s.pendingOpen
    ensures r.next.lastMouseDown == s.lastMouseDown
    ensures Inv(s) ==> Inv(r.next)
  {
    Step(s.(isOpen := false, contentHidden := true, pendingClose := s.pendingClose + 1), [WillClose])
  }

  /**
    The fade-in's completion handler: it always lowers the opening guard,
    but announces `didOpenPopup` (and makes the panel key again) only if the
    popup is still open.
  */
  function OpenDone(s: State): (r: Step)
    ensures s.pendingOpen == 0 ==> r == Step(s, [])
    ensures s.pendingOpen > 0 ==>
      && !r.next.isOpening && r.next.pendingOpen == s.pendingOpen - 1
      && (r.notices == [DidOpen] <==> s.isOpen)
      && (!s.isOpen ==> r.notices == [])
      && r.next.isOpen == s.isOpen && r.next.highlighted == s.highlighted
    ensures s.pendingOpen > 0 ==>
      r.next == s.(isOpening := false, pendingOpen := s.pendingOpen - 1, visible := r.next.visible)
    ensures Inv(s) ==> Inv(r.next) && r.next.visible == s.visible
  {
    if s.pendingOpen == 0 then Step(s, [])
    else
      var done := s.(isOpening := false, pendingOpen := s.pendingOpen - 1);
      if s.isOpen then Step(done.(visible := true), [DidOpen]) else Step(done, [])
  }

  /**
    The fade-out's completion handler: if the popup was reopened meanwhile it
    does nothing; otherwise the panel is ordered out, the button
    unhighlighted, and `didClosePopup` announced.
  */
  function CloseDone(s: State): (r: Step)
    ensures s.pendingClose == 0 ==> r == Step(s, [])
    ensures s.pendingClose > 0 && s.isOpen ==> r.next == s.(pendingClose := s.pendingClose - 1) && r.notices == []
    ensures s.pendingClose > 0 && !s.isOpen ==>
      && !r.next.visible && !r.next.highlighted && r.notices == [DidClose]
      && r.next.pendingClose == s.pendingClose - 1
    ensures r.next.isOpen == s.isOpen && r.next.isOpening == s.isOpening
    ensures r.next == s.(pendingClose := r.next.pendingClose, visible := r.next.visible, highlighted := r.next.highlighted)
    ensures Inv(s) ==> Inv(r.next)
  {
    if s.pendingClose == 0 then Step(s, [])
    else
      var done := s.(pendingClose := s.pendingClose - 1);
      if s.isOpen then Step(done, [])
      else Step(done.(visible := false, highlighted := false), [DidClose])
  }

  /**
    `NSWindow.close()` on the panel: `windowWillClose` closes the popup, and
    AppKit then orders the panel out at once. The button stays highlighted
    until the scheduled fade-out handler runs.
  */
  function CloseWindow(s: State): (r: Step)
    ensures r.notices == [WillClose]
    ensures !r.next.isOpen && !r.next.visible && r.next.contentHidden
    ensures r.next.highlighted == s.highlighted && r.next.isOpening == s.isOpening
    ensures r.next.pendingClose == s.pendingClose + 1 && r.next.pendingOpen == s.pendingOpen
    ensures r.next.frame == s.frame && r.next.arrowX == s.arrowX && r.next.lastMouseDown == s.lastMouseDown
    ensures Inv(s) ==> Inv(r.next)
  {
    var closing := BeginClose(s);
    Step(closing.next.(visible := false), closing.notices)
  }

  /** `windowDidResignKey`: closes, unless the panel is off screen or still fading in. */
  function ResignKey(s: State): (r: Step)
    ensures s.visible && !s.isOpening ==> r == BeginClose(s)
    ensures !(s.visible && !s.isOpening) ==> r == Step(s, [])
    ensures Inv(s) ==> Inv(r.next)
  {
    if s.visible && !s.isOpening then BeginClose(s) else Step(s, [])
  }

  /** `togglePopup`, given what opening would put in place. */
  function Toggle(s: State, keys: PopupKeys, frame: Rect, arrowX: real): (r: Step)
    ensures r.next.isOpen == !s.isOpen
    ensures s.isOpen ==> r == BeginClose(s)
    ensures !s.isOpen ==> r == BeginOpen(s, keys, frame, arrowX)
    ensures Inv(s) ==> Inv(r.next)
  {
    if s.isOpen then BeginClose(s) else BeginOpen(s, keys, frame, arrowX)
  }

  /** The callbacks, without their arguments. */
  datatype Kind = KWillOpen | KDidOpen | KWillClose | KDidClose | KResized

  function KindOf(n: Notice): Kind
  {
    match n
    case WillOpen(_) => KWillOpen
    case DidOpen => KDidOpen
    case WillClose => KWillClose
    case DidClose => KDidClose
    case Resized(_) => KResized
  }

  /** How many callbacks of kind `k` a trace holds. */
  function Count(ns: seq<Notice>, k: Kind): nat
  {
    if ns == [] then 0 else (if KindOf(ns[0]) == k then 1 else 0) + Count(ns[1..], k)
  }

  lemma CountShort(n: Notice, k: Kind)
    ensures Count([], k) == 0
    ensures Count([n], k) == if KindOf(n) == k then 1 else 0
  {
    assert [n][1..] == [];
  }

  lemma {:induction false} CountAppend(a: seq<Notice>, b: seq<Notice>, k: Kind)
    ensures Count(a + b, k) == Count(a, k) + Count(b, k)
  {
    if a == [] {
      assert a + b == b;
    } else {
      assert (a + b)[1..] == a[1..] + b;
      CountAppend(a[1..], b, k);
    }
  }

  /**
    Toggling twice from a settled, closed popup and letting both animations
    finish, in either order, leaves it closed, unhighlighted and off screen,
    with `willOpen`, `willClose` and `didClose` announced and `didOpen` not.
  */
  lemma ToggleTwiceFromClosed(s: State, keys: PopupKeys, frame: Rect, arrowX: real, openFirst: bool)
    requires Inv(s) && Settled(s) && !s.isOpen
    ensures var once := Toggle(s, keys, frame, arrowX);
      var twice := Toggle(once.next, keys, frame, arrowX);
      var t := twice.next;
      var a := if openFirst then OpenDone(t) else CloseDone(t);
      var b := if openFirst then CloseDone(a.next) else OpenDone(a.next);
      && !t.isOpen && t.highlighted
      && !b.next.isOpen && !b.next.visible && !b.next.highlighted && Settled(b.next)
      && once.notices + twice.notices + a.notices + b.notices
         == [WillOpen(keys), WillClose, DidClose]
  {
  }

  /**
    Toggling twice from a settled, open popup and letting both animations
    finish, in either order, leaves it open, highlighted and on screen: the
    stale fade-out's handler does nothing.
  */
  lemma ToggleTwiceFromOpen(s: State, keys: PopupKeys, frame: Rect, arrowX: real, openFirst: bool)
    requires Inv(s) && Settled(s) && s.isOpen
    ensures var once := Toggle(s, keys, frame, arrowX);
      var twice := Toggle(once.next, keys, frame, arrowX);
      var t := twice.next;
      var a := if openFirst then OpenDone(t) else CloseDone(t);
      var b := if openFirst then CloseDone(a.next) else OpenDone(a.next);
      && t.isOpen
      && b.next.isOpen && b.next.visible && b.next.highlighted && Settled(b.next)
      && DidClose !in once.notices + twice.notices + a.notices + b.notices
  {
  }

  /** While the fade-in runs, losing key status does not close the popup. */
  lemma ResignKeyWhileOpening(s: State)
    requires s.isOpening
    ensures ResignKey(s) == Step(s, [])
  {
  }
}

=== FILE: statusitems.dfy ===
/**
  Deciding whether a mouse event is a click on this status item
  (`clickedStatusItem`, `realItem`, `realWindow`, `shouldTrigger`).

  AppKit objects appear as plain values. Windows and buttons are compared by
  identity, so each carries an id; what the source reads through key-value
  coding (a window's `statusItem`, a replicant's `parentItem` and `window`) is
  stored in the value as an already-resolved field.
*/
module StatusItems {
  import opened Optionals
  import Modifiers

  type WindowId = nat
  type ButtonId = nat

  /** An `NSStatusBarButton`: its identity and the window it sits in. */
  datatype Button = Button(id: ButtonId, window: Option<WindowId>)

  /**
    An `NSStatusItem`, or an `NSStatusItemReplicant` (a copy the system shows
    on another screen or space), told apart by `className`. `parentItem` and
    `kvcWindow` are what key-value coding answers for `"parentItem"` and
    `"window"` (`None` when absent or not of the expected class).
  */
  datatype StatusItem = StatusItem(
    className: string,
    button: Option<Button>,
    parentItem: Option<StatusItem>,
    kvcWindow: Option<WindowId>)

  /** An `NSWindow`; `statusItem` is its key-value-coding `"statusItem"` cast to a status item. */
  datatype Window = Window(id: WindowId, className: string, statusItem: Option<StatusItem>)

  datatype EventKind = LeftMouseDown | LeftMouseUp | OtherEvent

  /** The parts of an `NSEvent` the popup looks at; `timestamp` is in seconds. */
  datatype MouseEvent = MouseEvent(
    kind: EventKind,
    window: Option<Window>,
    eventNumber: int,
    flags: Modifiers.Flags,
    timestamp: real)

  const StatusItemClass: string := "NSStatusItem"

  /** The event number menu-bar managers (Bartender) give the clicks they synthesize. */
  const SyntheticEventNumber: int := 1337

  predicate HasPrefix(s: string, p: string)
  {
    |p| <= |s| && s[..|p|] == p
  }

  predicate HasSuffix(s: string, p: string)
  {
    |p| <= |s| && s[|s| - |p|..] == p
  }

  /** The class of a status bar window: `NSStatusBar…Window`. */
  predicate IsStatusBarWindowClass(name: string)
  {
    HasPrefix(name, "NSStatusBar") && HasSuffix(name, "Window")
  }

  /** `clickedStatusItem`: the status item (or replicant) whose status bar window received the event. */
  function ClickedStatusItem(e: MouseEvent): (r: Option<StatusItem>)
    ensures r.Some? <==>
      e.window.Some? && IsStatusBarWindowClass(e.window.value.className) && e.window.value.statusItem.Some?
    ensures r.Some? ==> r == e.window.value.statusItem
  {
    match e.window
    case None => None
    case Some(w) => if IsStatusBarWindowClass(w.className) then w.statusItem else None
  }

  /** `realItem`: a status item stands for itself; a replicant stands for the item it replicates. */
  function RealItem(item: StatusItem): (r: Option<StatusItem>)
    ensures item.className == StatusItemClass ==> r == Some(item)
    ensures item.className != StatusItemClass ==> r == item.parentItem
  {
    if item.className == StatusItemClass then Some(item) else item.parentItem
  }

  /**
    `realWindow`: a status item's window is its button's window; a replicant's
    is the window it was given itself, not its parent's.
  */
  function RealWindow(item: StatusItem): (r: Option<WindowId>)
    ensures item.className == StatusItemClass && item.button.None? ==> r.None?
    ensures item.className == StatusItemClass && item.button.Some? ==> r == item.button.value.window
    ensures item.className != StatusItemClass ==> r == item.kvcWindow
  {
    if item.className == StatusItemClass then
      match item.button
      case None => None
      case Some(b) => b.window
    else item.kvcWindow
  }

  /** `event.clickedStatusItem?.realItem?.button`. */
  function ClickedButton(e: MouseEvent): Option<Button>
  {
    match ClickedStatusItem(e)
    case None => None
    case Some(it) =>
      match RealItem(it)
      case None => None
      case Some(owner) => owner.button
  }

  /** `event.clickedStatusItem?.realWindow`. */
  function ClickedWindow(e: MouseEvent): Option<WindowId>
  {
    match ClickedStatusItem(e)
    case None => None
    case Some(it) => RealWindow(it)
  }

  /** A plain Command click: how the system lets the user drag a status item to a new place. */
  predicate IsMoveClick(e: MouseEvent)
  {
    Modifiers.Masked(e.flags) == Modifiers.Bit(Modifiers.Command) && e.kind == LeftMouseDown
  }

  /**
    `shouldTrigger(forEvent:)`: the event is a click on this item's own
    button in its own window, is not a synthesized menu-bar-manager click,
    and is not a Command-drag.
  */
  function ShouldTrigger(item: StatusItem, e: MouseEvent): (r: bool)
    ensures r ==> e.eventNumber != SyntheticEventNumber
    ensures r ==> !(e.kind == LeftMouseDown && Modifiers.HoldsExactly(e.flags, {Modifiers.Command}))
    ensures r ==> item.button.Some? && ClickedButton(e).Some? && ClickedButton(e).value.id == item.button.value.id
    ensures r ==> e.window.Some? && ClickedWindow(e) == Some(e.window.value.id)
    ensures r ==> ClickedStatusItem(e).Some?
    ensures
      (&& item.button.Some? && ClickedButton(e).Some? && ClickedButton(e).value.id == item.button.value.id
       && e.window.Some? && ClickedWindow(e) == Some(e.window.value.id)
       && e.eventNumber != SyntheticEventNumber
       && !(e.kind == LeftMouseDown && Modifiers.HoldsExactly(e.flags, {Modifiers.Command})))
      ==> r
  {
    Modifiers.ExactChords(e.flags);
    var sameButton :=
      item.button.Some? && ClickedButton(e).Some? && ClickedButton(e).value.id == item.button.value.id;
    var sameWindow := e.window.Some? && ClickedWindow(e) == Some(e.window.value.id);
    var bartenderEvent := e.eventNumber == SyntheticEventNumber;
    sameButton && sameWindow && !bartenderEvent && !IsMoveClick(e)
  }

  /** A plain status item resolves to itself and to its button's window. */
  lemma PlainItemIsItsOwnRealItem(item: StatusItem, b: Button)
    requires item.className == StatusItemClass && item.button == Some(b)
    ensures RealItem(item) == Some(item)
    ensures RealWindow(item) == b.window
  {
  }

  /** A replicant resolves to its parent's button but to its own window. */
  lemma ReplicantResolvesToParent(rep: StatusItem, parent: StatusItem)
    requires rep.className != StatusItemClass && rep.parentItem == Some(parent)
    ensures RealItem(rep) == Some(parent)
    ensures RealWindow(rep) == rep.kvcWindow
  {
  }

  /**
    The name `NSStatusBarWindow` is a status bar window class, and no shorter
    name is: the prefix and the suffix cannot overlap.
  */
  lemma StatusBarWindowClassLength(name: string)
    ensures IsStatusBarWindowClass("NSStatusBarWindow")
    ensures IsStatusBarWindowClass(name) ==> |name| >= 17
    ensures !IsStatusBarWindowClass(StatusItemClass)
  {
    if IsStatusBarWindowClass(name) {
      StatusBarWindowChars(name);
    }
  }

  /** A status bar window class starts with the letters of `NSStatusBar` and has a `W` six from the end. */
  lemma StatusBarWindowChars(name: string)
    requires IsStatusBarWindowClass(name)
    ensures |name| >= 11 && name[|name| - 6] == 'W'
    ensures forall i | 0 <= i < 11 :: name[i] == "NSStatusBar"[i]
  {
    assert name[|name| - 6..][0] == 'W';
    assert forall i | 0 <= i < 11 :: name[..11][i] == name[i];
  }

  /** A click on the item's own status bar window, with no modifier held, opens it. */
  lemma PlainClickTriggers(item: StatusItem, b: Button, w: Window, e: MouseEvent)
    requires item.className == StatusItemClass && item.button == Some(b) && b.window == Some(w.id)
    requires IsStatusBarWindowClass(w.className) && w.statusItem == Some(item)
    requires e.window == Some(w) && e.eventNumber != SyntheticEventNumber
    requires Modifiers.Masked(e.flags) == 0
    ensures ShouldTrigger(item, e)
  {
  }

  /**
    A click on a replicant of `item`, in the replicant's own window, triggers
    `item` even though the window is not the item's.
  */
  lemma ReplicantClickTriggersParent(item: StatusItem, rep: StatusItem, w: Window, e: MouseEvent)
    requires item.className == StatusItemClass && item.button.Some?
    requires rep.className != StatusItemClass && rep.parentItem == Some(item) && rep.kvcWindow == Some(w.id)
    requires IsStatusBarWindowClass(w.className) && w.statusItem == Some(rep)
    requires e.window == Some(w) && e.eventNumber != SyntheticEventNumber
    requires Modifiers.Masked(e.flags) == 0
    ensures ShouldTrigger(item, e)
  {
  }

  /** Clicks synthesized with the reserved event number never trigger. */
  lemma SyntheticClickNeverTriggers(item: StatusItem, e: MouseEvent)
    requires e.eventNumber == SyntheticEventNumber
    ensures !ShouldTrigger(item, e)
  {
  }

  /** A plain Command mouse-down never triggers, but Command+Option does and so does a Command mouse-up. */
  lemma CommandClickRules(item: StatusItem, e: MouseEvent)
    ensures e.kind == LeftMouseDown && Modifiers.HoldsExactly(e.flags, {Modifiers.Command}) ==> !ShouldTrigger(item, e)
    ensures ShouldTrigger(item, e) && e.kind == LeftMouseDown ==>
      ShouldTrigger(item, e.(flags := e.flags | Modifiers.Bit(Modifiers.Option)))
    ensures ShouldTrigger(item, e) ==> ShouldTrigger(item, e.(kind := LeftMouseUp))
  {
    var withOption := e.(flags := e.flags | Modifiers.Bit(Modifiers.Option));
    Modifiers.HeldMembers(withOption.flags);
    assert Modifiers.Option in Modifiers.Held(withOption.flags);
    assert ClickedButton(withOption) == ClickedButton(e) && ClickedWindow(withOption) == ClickedWindow(e);
    var released := e.(kind := LeftMouseUp);
    assert ClickedButton(released) == ClickedButton(e) && ClickedWindow(released) == ClickedWindow(e);
  }

  /** An event outside any status bar window, or on an item without a button, never triggers. */
  lemma ForeignClickNeverTriggers(item: StatusItem, e: MouseEvent)
    requires e.window.None? || !IsStatusBarWindowClass(e.window.value.className) || item.button.None?
    ensures !ShouldTrigger(item, e)
  {
  }
}
